=== FILE: README.md ===
# Static-resource routing filter, modelled in Dafny

This project models `JBResourceServletFilter`, a servlet filter that sits in front of eXist-db. It serves static resources straight from disk. Every other request goes on to the next filter.

The filter works from a mappings file:
`<mappings ignore="regex"><map url="regex" to="template"/>...</mappings>`.

Each request goes through these steps:
- Its path is the request URI without the context path.
- A path that the ignore pattern matches is passed on at once.
- Otherwise the filter reloads the mappings file if it is due and has changed.
- The first `map` whose `url` matches the whole path decides. The `$1..$N` placeholders in its `to` template are replaced by the capture groups.
- The result, appended to `basePath`, is served if it is an existing regular file. Otherwise the request is passed on.

The reload check has two gates:
- It runs at most once every `REFRESH_MAPPINGS_MS` (10 000 ms).
- It rebuilds the table only when the file's modification time is strictly newer than the last one seen.

The filter's log collapses consecutive identical messages into a "N more like the above." line.

Modules:
- `Text`: Java's `"" + n` for a non-negative int, and `String.replace`.
- `Regex`: the regular-expression engine, kept abstract as an `Engine` value. It says whether a source compiles and gives the capture groups of a whole-string match.
- `Mappings`: the parsed mappings document and the rule compiler.
- `Router`: placeholder substitution, first-match search and the routing `Decision`.
- `LogDedup`: the deduplicating log and the counter overflow described under Findings.
- `FilterSpec`: the filter as functions of its state (`FilterState`): reload, `findFile`, `doFilter`, `init`, plus the properties proved about them.
- `Filter`: the class `ResourceFilter`. Its fields are the Java fields. Its methods update them in place, with the same loops as the Java code. Each method is proved to leave `State()` and its result exactly as the matching `FilterSpec` function says.

The environment is passed in as parameters:
- the clock (`now`);
- the mappings file's `lastModified` (`mtime`);
- the parsed file (`ParseResult`);
- the existence check on candidate files (`isFile`).

Where the code departs from its own documentation or from the obvious intent, the model follows the code:
- `mappingsFileLastModified` is updated before the file is parsed. A file that fails to parse keeps the old table and raises an error, and it is not read again until its modification time advances.
- `Pattern.compile` failures are not caught: the `PatternSyntaxException` escapes from `readMappingsIfNeeded`, and from `doFilter` or `init`. The new modification time is already recorded at that point.
  - If the `ignore` regex is the bad one, the exception comes before anything is replaced, so the old ignore pattern and rules stay in force.
  - If a `url` is the bad one, the new ignore pattern is installed and `mappings` holds only the rules that came before that `url`.
- The request that triggers a failed reload fails with that exception. It is not routed, and the previous rules do not serve it either.
- The ignore check uses the pattern in force before the reload check. A pattern installed by that reload applies only from the next request.
- A failing `getLength()` sets `mappings` to null, not to an empty list. Every routed request then logs "No mappings have been read" at severe level.
- The deadline check is strict (`now > deadline`), so a request at exactly the deadline does not trigger a check.
- Placeholders are replaced with `String.replace` in ascending order. So `$10` is rewritten as `$1` followed by `0`, and text substituted for one group is scanned again for later placeholders.

## Model

| member | source | states |
|---|---|---|
| Text.NatToString | src/main/java/nl/benjamins/exist/servlet/JBResourceServletFilter.java:299 | the decimal text of a non-negative number, as `"$" + j` and the counts in messages use it: non-empty and all digits; `Text.NatToStringValue` pins its value |
| Text.NatToStringValue | src/main/java/nl/benjamins/exist/servlet/JBResourceServletFilter.java:299 | the text `NatToString` gives denotes n in decimal (read back by `DecimalValue`), with no leading zero |
| Text.ReplaceAll | src/main/java/nl/benjamins/exist/servlet/JBResourceServletFilter.java:299 | no contract: Java's literal, left-to-right, non-overlapping `String.replace`; its properties are the lemmas `Text.ReplaceAllAbsent`, `Text.ReplaceAllAt` and `Text.ReplaceAllPlainPrefix` |
| Text.ReplaceAllAbsent | src/main/java/nl/benjamins/exist/servlet/JBResourceServletFilter.java:299 | `replace` returns a string in which the target never occurs unchanged |
| Router.SubstituteUpTo | src/main/java/nl/benjamins/exist/servlet/JBResourceServletFilter.java:294-300 | no contract: the template after `$1` .. `$k` are replaced in ascending order, a null group by ""; the lemmas `Router.SubstituteKeepsPlainTemplate`, `Router.SubstitutionSettles`, `Router.PlaceholderTenReadsGroupOne` state its properties, and the substitution loop of `Filter.ResourceFilter.FindFile` keeps it as its invariant |
| Router.Substitute | src/main/java/nl/benjamins/exist/servlet/JBResourceServletFilter.java:294-300 | no contract: every group of the match substituted, 1 to groupCount; see `Router.DocumentedExample` and `Router.ResourcesTemplate` |
| Router.SubstituteKeepsPlainTemplate | src/main/java/nl/benjamins/exist/servlet/JBResourceServletFilter.java:294-300 | a `to` template without `$` maps to itself whatever the groups |
| Router.SubstitutionSettles | src/main/java/nl/benjamins/exist/servlet/JBResourceServletFilter.java:294-300 | once the partly substituted path has no `$`, the remaining groups leave it unchanged |
| Router.DocumentedExample | src/main/java/nl/benjamins/exist/servlet/JBResourceServletFilter.java:88 | the class comment's example: groups "one", "a.png" and `$1/resources/$2` give `one/resources/a.png` |
| Router.ResourcesTemplate | src/main/java/nl/benjamins/exist/servlet/JBResourceServletFilter.java:88 | `$1/resources/$2` gives group 1, "/resources/", group 2, for any group 1 without `$` |
| Router.PlaceholderTenReadsGroupOne | src/main/java/nl/benjamins/exist/servlet/JBResourceServletFilter.java:295-299 | for any groups (ten or more included) whose group 1 has no `$`, `$10` becomes group 1's text followed by "0", never group 10 |
| Router.FirstMatchFrom | src/main/java/nl/benjamins/exist/servlet/JBResourceServletFilter.java:286-292 | the index found is the lowest at or after the start whose pattern fully matches, with that match's groups; None means no rule matches |
| Router.Route | src/main/java/nl/benjamins/exist/servlet/JBResourceServletFilter.java:278-315 | no rules (null) gives NoMappings; NoMatch iff no rule matches; otherwise the first matching rule, its substituted path, and whether `basePath + filePath` is a regular file |
| Router.Resolved | src/main/java/nl/benjamins/exist/servlet/JBResourceServletFilter.java:302-309 | a file is returned iff the first match found an existing file; it then is `basePath` followed by the substituted path, so it always lies under the base path |
| Router.LaterRulesNeverConsulted | src/main/java/nl/benjamins/exist/servlet/JBResourceServletFilter.java:286-310 | rules after the first match can be changed without changing the decision, even when the match leads to a missing file |
| Router.SwapDisjointRules | src/main/java/nl/benjamins/exist/servlet/JBResourceServletFilter.java:286-311 | swapping two adjacent rules that never both match the path leaves the served file unchanged |
| Router.OverlappingRulesOrderMatters | src/main/java/nl/benjamins/exist/servlet/JBResourceServletFilter.java:89-91 | when two rules both match and map to different existing files, their order decides which file is served |
| Mappings.Compile | src/main/java/nl/benjamins/exist/servlet/JBResourceServletFilter.java:252-265 | the compile loop builds at most one rule per `map` node |
| Mappings.CompileBuildsElementRules | src/main/java/nl/benjamins/exist/servlet/JBResourceServletFilter.java:252-265 | compilation fails iff some `url` does not compile; otherwise one rule per `map` element in document order; on failure, the rules of the elements before the first bad `url` |
| LogDedup.Format | src/main/java/nl/benjamins/exist/servlet/JBResourceServletFilter.java:347-349 | the logged text ends with the message; without a path it is the message, with one it is prefixed by `[`, the path and `] ` |
| LogDedup.SinkLevel | src/main/java/nl/benjamins/exist/servlet/JBResourceServletFilter.java:359-365 | severe and warning go to their own logger methods; every other level goes to info |
| LogDedup.Log | src/main/java/nl/benjamins/exist/servlet/JBResourceServletFilter.java:346-366 | the message becomes `mostRecentMessage`; the counter plus the output account for every call; output only grows, and grows iff the formatted message differs from the previous one, and then it is the old output, one summary of the pending count when that count is positive, and the message at severe/warning/info |
| LogDedup.SummaryThenMessage | src/main/java/nl/benjamins/exist/servlet/JBResourceServletFilter.java:354-365 | a new message after n > 0 repeats hands the logger exactly two lines: "n more like the above." at info, then the message at its sink level |
| LogDedup.LogAllLossless | src/main/java/nl/benjamins/exist/servlet/JBResourceServletFilter.java:350-358 | over any sequence of calls, every message is emitted, counted in a summary, or still pending in the counter |
| LogDedup.RepeatsOnlyCount | src/main/java/nl/benjamins/exist/servlet/JBResourceServletFilter.java:350-353 | n repetitions of the previous message emit nothing and add n to the counter |
| LogDedup.InitialDeduplicated | src/main/java/nl/benjamins/exist/servlet/JBResourceServletFilter.java:134-135 | the initial null/0 state satisfies the deduplication invariant |
| LogDedup.LogKeepsDeduplicated | src/main/java/nl/benjamins/exist/servlet/JBResourceServletFilter.java:346-366 | `log` keeps the invariant: no message line directly repeats, `mostRecentMessage` is the last line, every summary counts at least one repeat |
| LogDedup.AsWrittenIncrement | src/main/java/nl/benjamins/exist/servlet/JBResourceServletFilter.java:351 | `++messageRepeats` on a Java int is addition modulo 2^32 into the int range: it adds one below Integer.MAX_VALUE and wraps from it to Integer.MIN_VALUE |
| LogDedup.AsWrittenRepeatsAfter | src/main/java/nl/benjamins/exist/servlet/JBResourceServletFilter.java:350-352 | the Java counter after k repeats stays in int range |
| LogDedup.AsWrittenRepeatsBelowWrap | src/main/java/nl/benjamins/exist/servlet/JBResourceServletFilter.java:351 | up to Integer.MAX_VALUE repeats, the Java counter equals the number of repeats |
| LogDedup.AsWrittenOverflowDropsSummary | src/main/java/nl/benjamins/exist/servlet/JBResourceServletFilter.java:351-356 | after 2^31 repeats the Java counter is negative, so the `> 0` guard drops the summary |
| LogDedup.CorrectedCounterReportsRepeats | src/main/java/nl/benjamins/exist/servlet/JBResourceServletFilter.java:354-358 | with an unbounded counter, 2^31 repeats followed by a new message emit one summary of 2^31 and then the message |
| FilterSpec.ApplyDocument | src/main/java/nl/benjamins/exist/servlet/JBResourceServletFilter.java:233-267 | compiling a document touches neither the deadline, the recorded mtime nor the paths, and fails only with an invalid regex; an `ignore` regex that does not compile leaves the ignore pattern and rules unchanged |
| FilterSpec.ReadMappingsIfNeeded | src/main/java/nl/benjamins/exist/servlet/JBResourceServletFilter.java:210-276 | nothing changes unless `now > whenToLoadMappingsAgain`; past it the deadline is `now + 10000` whatever follows; the table and mtime change only for a strictly newer file, whose mtime is recorded; a parse failure keeps the table and raises an error |
| FilterSpec.FindFile | src/main/java/nl/benjamins/exist/servlet/JBResourceServletFilter.java:278-315 | only the log changes; the decision is `Route`'s and is the last message, prefixed with the path, logged at severe for no mappings, warning for a missing file and info otherwise |
| FilterSpec.DoFilter | src/main/java/nl/benjamins/exist/servlet/JBResourceServletFilter.java:175-202 | a context path longer than the URI fails at once; otherwise a request fails exactly when it is not ignored and the reload check it triggers fails. That reload must have been due, for a newer file, with a parse or regex error. The request then fails with that error and the reload's state, without routing |
| FilterSpec.NormalizeBasePath | src/main/java/nl/benjamins/exist/servlet/JBResourceServletFilter.java:159 | the base path ends with "/", extends the parameter by at most that "/", and is unchanged when it already ends with "/" |
| FilterSpec.Init | src/main/java/nl/benjamins/exist/servlet/JBResourceServletFilter.java:146-172 | a missing `basePath` or `mappingsPath` is exactly what fails with the matching error; the stored base path is normalised; with both present, `init` fails exactly when the first `readMappingsIfNeeded` fails, with its error and state |
| FilterSpec.AtMostOneCheckPerInterval | src/main/java/nl/benjamins/exist/servlet/JBResourceServletFilter.java:210-216 | after a check at `now`, any later call up to `now + 10000` changes nothing, whatever the file says |
| FilterSpec.NewerFileIsCompiled | src/main/java/nl/benjamins/exist/servlet/JBResourceServletFilter.java:221-267 | a newer file that parses is compiled: no ignore pattern iff `ignore` is empty; one rule per element in order; null rules on a `getLength` failure; error iff a regex does not compile |
| FilterSpec.BadRegexLeavesPartialTable | src/main/java/nl/benjamins/exist/servlet/JBResourceServletFilter.java:224-265 | a bad `url` raises an error after the new mtime and ignore pattern are in place, with `mappings` holding the rules of the earlier elements |
| FilterSpec.BadIgnoreKeepsTable | src/main/java/nl/benjamins/exist/servlet/JBResourceServletFilter.java:221-236 | an `ignore` regex that does not compile raises an error after the new mtime is recorded, with the old ignore pattern and rules kept; later calls with an mtime that is not newer change neither and do not fail |
| FilterSpec.ParseFailureNotRetried | src/main/java/nl/benjamins/exist/servlet/JBResourceServletFilter.java:221-273 | a parse failure keeps `mappings`/`ignoreUrlPattern` and raises an error; no later call with an mtime not newer than the failed one changes them or fails |
| FilterSpec.IgnoredRequestSkipsReloadAndRouting | src/main/java/nl/benjamins/exist/servlet/JBResourceServletFilter.java:180-187 | a path the current ignore pattern matches is delegated, with deadline, mtime and table untouched |
| FilterSpec.RoutedRequestServedIffFileFound | src/main/java/nl/benjamins/exist/servlet/JBResourceServletFilter.java:189-201 | a path that is not ignored, and whose reload check raises no error, is served iff the first matching rule after the reload check maps it to a regular file; that file is `basePath + filePath`; otherwise it is delegated |
| FilterSpec.FirstInitReadsMappings | src/main/java/nl/benjamins/exist/servlet/JBResourceServletFilter.java:138-172 | a new filter's first `init` at `now > 0`, with file time `> 0`, both parameters present, and a document with readable `map` nodes whose `url`s all compile and whose `ignore` is empty or compiles, reads the file without error: deadline `now + 10000`, rules one per element in order, base path ending in "/", ignore pattern absent iff `ignore` is empty |
| Filter.ResourceFilter.constructor | src/main/java/nl/benjamins/exist/servlet/JBResourceServletFilter.java:130-143 | both timestamps start at 0; no ignore pattern, no mappings, no previous message |
| Filter.ResourceFilter.Log | src/main/java/nl/benjamins/exist/servlet/JBResourceServletFilter.java:342-366 | updates `mostRecentMessage`, `messageRepeats` and the emitted lines as `LogDedup.Log` |
| Filter.ResourceFilter.ReadMappingsIfNeeded | src/main/java/nl/benjamins/exist/servlet/JBResourceServletFilter.java:210-276 | leaves the fields and returns the error as `FilterSpec.ReadMappingsIfNeeded` |
| Filter.ResourceFilter.CompileDocument | src/main/java/nl/benjamins/exist/servlet/JBResourceServletFilter.java:233-267 | builds `mappings` in place in a loop, leaving the fields and error as `FilterSpec.ApplyDocument` |
| Filter.ResourceFilter.FindFile | src/main/java/nl/benjamins/exist/servlet/JBResourceServletFilter.java:278-315 | the rule loop and the nested substitution loop return `Route`'s file, and log as `FilterSpec.FindFile` |
| Filter.ResourceFilter.DoFilter | src/main/java/nl/benjamins/exist/servlet/JBResourceServletFilter.java:175-202 | the outcome and new fields are those of `FilterSpec.DoFilter` |
| Filter.ResourceFilter.Init | src/main/java/nl/benjamins/exist/servlet/JBResourceServletFilter.java:146-172 | the new fields and error are those of `FilterSpec.Init` |
| Filter.ResourceFilter.Destroy | src/main/java/nl/benjamins/exist/servlet/JBResourceServletFilter.java:205-208 | logs the warning and changes nothing else |

## Findings

| source | as written | input that shows it | evidently intended | confidence | as-written member | corrected member |
|---|---|---|---|---|---|---|
| src/main/java/nl/benjamins/exist/servlet/JBResourceServletFilter.java:351-356 | `messageRepeats` is a Java `int` incremented with `++`, and the summary is written only when it is `> 0` | 2^31 consecutive identical log messages and then a different one: the counter wraps to -2^31 and no "more like the above." line is written | every suppressed repeat is reported in the summary | low (needs 2^31 identical consecutive messages, for example one ignored URL polled continuously); not executed | LogDedup.AsWrittenOverflowDropsSummary | LogDedup.LogAllLossless |

The rest of the model, including `LogDedup.Log` and `Filter.ResourceFilter.Log`, uses the corrected unbounded counter.

## Left out

- `returnFileContent` and `getMimeType` (lines 317-340) are not modelled: Jetty headers, streaming the file, and the MIME table. Serving is the opaque outcome `Serve(file)`. Their "has mime-type" log line is not modelled either, so the log state after a served request omits that one line.
- The XML parser (lines 228-231) is not modelled. The parsed document, or the parser's exception message, is an input (`ParseResult`). An I/O error while reading the file is one more `ParseError`.
- Regular-expression syntax and matching are not modelled: `Engine` is a parameter. Whether the engine returns the same group count for every input is not constrained.
- `synchronized` and concurrent requests are left out: the filter is one sequential object.
- The clock is read twice (lines 213 and 216). It is one `now` here. `file.lastModified()` is also read twice (lines 221 and 224). It is one `mtime` here.
- `whenToLoadMappingsAgain` and `mappingsFileLastModified` are Java `long`s. The model uses unbounded integers, so `now + 10000` never wraps.
- Init: the `loggerName` parameter and `Logger.getLogger` (lines 149-151) are not modelled. When a required parameter is missing, Java stores null in that field before throwing. The model leaves the field as it was. The container does not use a filter whose `init` failed.
- FindFile: the candidate file is the string `basePath + filePath`, and `isFile` answers `exists() && isFile()` for it. `java.io.File`'s path normalisation is not modelled.
- DoFilter: the request and response objects are reduced to the context path and the request URI. Passing the request on (`chain.doFilter`) is the outcome `Delegate`. `substring` counts UTF-16 code units; the model counts characters.
- LogDedup.Log: the counter is unbounded, not a Java int (see Findings).
- `SVGQRFunctions.java`, `FnInvisibleXml.java` and `ExtensionFunctionsModule.java` are not part of this model. They are wrappers over QR encoding, SVG drawing and parser-generation libraries, and module registration code.

=== FILE: filter.dfy ===
/**
 * The servlet filter object itself: its fields are updated in place by
 * `init`, `doFilter`, `readMappingsIfNeeded`, `findFile` and `log`, exactly
 * as the functions of FilterSpec describe.
 */
module Filter {
  import opened Wrappers
  import opened Regex
  import opened Text
  import opened LogDedup
  import opened Mappings
  import opened Router
  import FilterSpec

  class ResourceFilter {
    /** java.util.regex, fixed for the life of the filter. */
    const engine: Engine

    var basePath: string
    var mappingsPath: string
    var mostRecentMessage: Option<string>
    var messageRepeats: nat
    /** Everything handed to the logger, in order. */
    var emitted: seq<Entry>
    var ignoreUrlPattern: Option<Pattern>
    var mappings: Option<seq<Rule>>
    var mappingsFileLastModified: int
    var whenToLoadMappingsAgain: int

    ghost function State(): FilterSpec.FilterState
      reads this
    {
      FilterSpec.FilterState(basePath, mappingsPath, whenToLoadMappingsAgain, mappingsFileLastModified,
                             ignoreUrlPattern, mappings, LogState(mostRecentMessage, messageRepeats, emitted))
    }

    constructor (engine: Engine)
      ensures this.engine == engine
      ensures State() == FilterSpec.Fresh
    {
      this.engine := engine;
      basePath, mappingsPath := "", "";
      mostRecentMessage, messageRepeats, emitted := None, 0, [];
      ignoreUrlPattern, mappings := None, None;
      mappingsFileLastModified, whenToLoadMappingsAgain := 0, 0;
    }

    /** `log(level, urlPath, message)`. */
    method Log(level: Level, urlPath: Option<string>, message: string)
      modifies this
      ensures State() == FilterSpec.Logging(old(State()), level, urlPath, message)
    {
      var m := message;
      if urlPath.Some? {
        m := "[" + urlPath.value + "] " + m;
      }
      if mostRecentMessage == Some(m) {
        messageRepeats := messageRepeats + 1;
        return;
      }
      if messageRepeats > 0 {
        emitted := emitted + [Summary(messageRepeats)];
      }
      mostRecentMessage := Some(m);
      messageRepeats := 0;
      if level == Severe {
        emitted := emitted + [Line(Severe, m)];
      } else if level == Warning {
        emitted := emitted + [Line(Warning, m)];
      } else {
        emitted := emitted + [Line(Info, m)];
      }
    }

    /** `readMappingsIfNeeded()` at time `now`, the mappings file having time `mtime` and parsing to `file`. */
    method ReadMappingsIfNeeded(now: int, mtime: int, file: ParseResult) returns (err: Option<FilterSpec.FilterError>)
      modifies this
      ensures (State(), err) == FilterSpec.ReadMappingsIfNeeded(engine, old(State()), now, mtime, file)
    {
      err := None;
      if now > whenToLoadMappingsAgain {
        Log(Info, None, FilterSpec.CheckMessage);
        whenToLoadMappingsAgain := now + FilterSpec.RefreshMappingsMs;
        var mappingsFile := basePath + mappingsPath;
        if mtime > mappingsFileLastModified {
          Log(Warning, None, FilterSpec.ReadingMessage(mappingsFile));
          mappingsFileLastModified := mtime;
          match file {
            case ParseError(message) =>
              Log(Severe, None, FilterSpec.ParseErrorMessage(mappingsFile, message));
              err := Some(FilterSpec.ParseFailed(mappingsFile));
            case Parsed(doc) =>
              err := CompileDocument(doc, mappingsFile);
          }
        }
      }
    }

    /** Lines 233-267 of `readMappingsIfNeeded`: install the ignore pattern, then build the rule list in place. */
    method CompileDocument(doc: Document, mappingsFile: string) returns (err: Option<FilterSpec.FilterError>)
      requires mappingsFile == basePath + mappingsPath
      modifies this
      ensures (State(), err) == FilterSpec.ApplyDocument(engine, old(State()), doc)
    {
      if |doc.ignore| > 0 {
        if !engine.compiles(doc.ignore) {
          return Some(FilterSpec.InvalidRegex(doc.ignore));
        }
        ignoreUrlPattern := Some(Pattern(doc.ignore));
      } else {
        ignoreUrlPattern := None;
      }
      match doc.maps {
        case LengthFailure(exceptionClass) =>
          Log(Severe, None, FilterSpec.LengthFailureMessage(exceptionClass));
          mappings := None;
          return None;
        case Nodes(nodes) =>
          mappings := Some([]);
          ghost var before := State();
          var i := 0;
          while i < |nodes|
            invariant 0 <= i <= |nodes|
            invariant mappings.Some?
            invariant mappings.value + Compile(engine, nodes[i..]).0 == Compile(engine, nodes).0
            invariant Compile(engine, nodes[i..]).1 == Compile(engine, nodes).1
            invariant State() == before.(mappings := mappings)
          {
            assert nodes[i..][1..] == nodes[i + 1..];
            if nodes[i].ElementNode? {
              var regex := nodes[i].url;
              var filePath := nodes[i].to;
              if !engine.compiles(regex) {
                assert nodes[i..][0] == nodes[i];
                assert Compile(engine, nodes[i..]) == ([], Some(regex));
                assert mappings.value + [] == mappings.value;
                return Some(FilterSpec.InvalidRegex(regex));
              }
              mappings := Some(mappings.value + [Rule(Pattern(regex), filePath)]);
            }
            i := i + 1;
          }
          assert nodes[i..] == [];
          assert Compile(engine, nodes[i..]) == ([], None);
          assert mappings.value + [] == mappings.value;
          assert mappings == Some(Compile(engine, nodes).0);
          assert Compile(engine, nodes).1 == None;
          Log(Warning, None, FilterSpec.FinishedMessage(|mappings.value|, |nodes|, mappingsFile));
          return None;
      }
    }

    /** `findFile(urlPath)`: the file to serve, if any, as `basePath + filePath`. */
    method FindFile(isFile: string -> bool, urlPath: string) returns (file: Option<string>)
      modifies this
      ensures var (s, d) := FilterSpec.FindFile(engine, old(State()), isFile, urlPath);
              State() == s && file == Resolved(old(basePath), d)
    {
      if mappings.None? {
        Log(Severe, Some(urlPath), FilterSpec.NoMappingsMessage);
        return None;
      }
      var rules := mappings.value;
      ghost var before := State();
      var i := 0;
      while i < |rules|
        invariant 0 <= i <= |rules|
        invariant FirstMatchFrom(engine, rules, urlPath, i) == FirstMatchFrom(engine, rules, urlPath, 0)
        invariant State() == before
      {
        var pattern := rules[i].pattern;
        var filePath := rules[i].to;
        var matcher := engine.fullMatch(pattern.source, urlPath);
        if matcher.Some? {
          // placeholders $1 .. $(j - 1) are replaced so far
          var groups := matcher.value;
          var j := 1;
          while j <= |groups|
            invariant 1 <= j <= |groups| + 1
            invariant filePath == SubstituteUpTo(rules[i].to, groups, j - 1)
          {
            var group := if groups[j - 1].Some? then groups[j - 1].value else "";
            filePath := ReplaceAll(filePath, "$" + NatToString(j), group);
            j := j + 1;
          }
          var candidate := basePath + filePath;
          if isFile(candidate) {
            Log(Info, Some(urlPath), FilterSpec.MatchedMessage(basePath, pattern, i, filePath, true));
            return Some(candidate);
          } else {
            Log(Warning, Some(urlPath), FilterSpec.MatchedMessage(basePath, pattern, i, filePath, false));
            return None;
          }
        }
        i := i + 1;
      }
      Log(Info, Some(urlPath), FilterSpec.NoMatchMessage);
      return None;
    }

    /**
     * `doFilter` for a request with the given context path and URI, at time
     * `now`, the mappings file having time `mtime` and parsing to `file`.
     */
    method DoFilter(contextPath: string, requestUri: string, now: int, mtime: int, file: ParseResult,
                    isFile: string -> bool) returns (outcome: FilterSpec.Outcome)
      modifies this
      ensures (State(), outcome) == FilterSpec.DoFilter(engine, old(State()), contextPath, requestUri, now, mtime, file, isFile)
    {
      if |contextPath| > |requestUri| {
        return FilterSpec.Fail(FilterSpec.ContextPathTooLong);
      }
      var urlPath := requestUri[|contextPath|..];

      // the ignore pattern in force before any reload is consulted first
      if ignoreUrlPattern.Some? && Matches(engine, ignoreUrlPattern.value, urlPath) {
        Log(Info, Some(urlPath), FilterSpec.IgnoredMessage);
        return FilterSpec.Delegate;
      }

      var err := ReadMappingsIfNeeded(now, mtime, file);
      if err.Some? {
        return FilterSpec.Fail(err.value);
      }

      var found := FindFile(isFile, urlPath);
      if found.None? {
        return FilterSpec.Delegate;
      }
      return FilterSpec.Serve(found.value);
    }

    /** `init` with the `basePath` and `mappingsPath` init parameters, None when absent. */
    method Init(basePathParam: Option<string>, mappingsPathParam: Option<string>, now: int, mtime: int, file: ParseResult)
      returns (err: Option<FilterSpec.FilterError>)
      modifies this
      ensures (State(), err) == FilterSpec.Init(engine, old(State()), basePathParam, mappingsPathParam, now, mtime, file)
    {
      if basePathParam.None? {
        return Some(FilterSpec.MissingBasePath);
      }
      basePath := basePathParam.value;
      if !EndsWith(basePath, "/") {
        basePath := basePath + "/";
      }
      if mappingsPathParam.None? {
        return Some(FilterSpec.MissingMappingsPath);
      }
      mappingsPath := mappingsPathParam.value;
      err := ReadMappingsIfNeeded(now, mtime, file);
      if err.Some? {
        return;
      }
      Log(Info, None, FilterSpec.StartedMessage);
    }

    /** `destroy()`: only logs. */
    method Destroy()
      modifies this
      ensures State() == FilterSpec.Logging(old(State()), Warning, None, FilterSpec.DestroyedMessage)
    {
      Log(Warning, None, FilterSpec.DestroyedMessage);
    }
  }
}

=== FILE: filterspec.dfy ===
/**
 * The resource filter as a function of its state: what `readMappingsIfNeeded`,
 * `findFile`, `doFilter` and `init` do to the filter's fields and what they
 * return, with the clock, the mappings file's modification time, the parsed
 * mappings file and the file-existence check passed in as values.
 */
module FilterSpec {
  import opened Wrappers
  import opened Regex
  import opened Text
  import opened LogDedup
  import opened Mappings
  import opened Router

  /** REFRESH_MAPPINGS_MS: the mappings file is looked at no more often than this. */
  const RefreshMappingsMs: int := 10000

  /** The exceptions the filter lets escape to the servlet container. */
  datatype FilterError =
    | MissingBasePath              // ServletException: no `basePath` init parameter
    | MissingMappingsPath          // ServletException: no `mappingsPath` init parameter
    | ParseFailed(file: string)    // ServletException wrapping the XML parser's exception
    | InvalidRegex(regex: string)  // PatternSyntaxException from Pattern.compile
    | ContextPathTooLong           // StringIndexOutOfBoundsException from substring

  /**
   * The filter's fields: `basePath`, `mappingsPath`, `whenToLoadMappingsAgain`,
   * `mappingsFileLastModified`, `ignoreUrlPattern` and `mappings` (None for
   * null), and the logging state.
   */
  datatype FilterState = FilterState(
    basePath: string,
    mappingsPath: string,
    deadline: int,
    lastModified: int,
    ignore: Option<Pattern>,
    mappings: Option<seq<Rule>>,
    log: LogState)

  /** A newly constructed filter: both timestamps 0, no ignore pattern, no mappings. */
  const Fresh := FilterState("", "", 0, 0, None, None, LogDedup.Initial)

  function MappingsFile(s: FilterState): string
  {
    s.basePath + s.mappingsPath
  }

  function Logging(s: FilterState, level: Level, urlPath: Option<string>, message: string): FilterState
  {
    s.(log := Log(s.log, level, urlPath, message))
  }

  const CheckMessage := "JBResourceServletFilter: Check if mappings should be read again."
  const StartedMessage := "JBResourceServletFilter: started."
  const DestroyedMessage := "An instance of the JBResourceServletFilter has been destroyed."
  const IgnoredMessage := " is ignored and passed on."
  const NoMappingsMessage := "No mappings have been read. No resources can be served."
  const NoMatchMessage := "has no mapping and will be passed on."

  function ReadingMessage(file: string): string
  {
    "JBResourceServletFilter: Reading resource mappings from [" + file + "]"
  }

  function ParseErrorMessage(file: string, exceptionMessage: string): string
  {
    "JBResourceServletFilter: Error parsing XML file " + file + " : " + exceptionMessage
  }

  function LengthFailureMessage(exceptionClass: string): string
  {
    "JBResourceServletFilter: Computing mapNodes.getLength() gave a " + exceptionClass + ". No mappings are available."
  }

  function FinishedMessage(read: nat, total: nat, file: string): string
  {
    "JBResourceServletFilter: Finished reading " + NatToString(read) + " / " + NatToString(total)
    + " resource mappings from [" + file + "]"
  }

  function MatchedMessage(basePath: string, pattern: Pattern, index: nat, filePath: string, found: bool): string
  {
    "matches [" + pattern.source + "] (" + NatToString(index + 1) + ") which maps to [" + basePath + " " + filePath
    + (if found then "]." else "] but that is not a readable file.")
  }

  /** The level `findFile` logs its decision at. */
  function DecisionLevel(d: Decision): Level
  {
    match d
    case NoMappings => Severe
    case NoMatch => Info
    case Matched(_, _, _, found) => if found then Info else Warning
  }

  function DecisionMessage(basePath: string, d: Decision): string
  {
    match d
    case NoMappings => NoMappingsMessage
    case NoMatch => NoMatchMessage
    case Matched(i, pattern, filePath, found) => MatchedMessage(basePath, pattern, i, filePath, found)
  }

  /**
   * Lines 233-267: the new ignore pattern, then the rule list, from a parsed
   * document. The ignore pattern is replaced before the rules are built, and
   * a url that does not compile ends the loop with the rules built so far.
   */
  function ApplyDocument(e: Engine, s: FilterState, doc: Document): (r: (FilterState, Option<FilterError>))
    ensures r.0.deadline == s.deadline && r.0.lastModified == s.lastModified
    ensures r.0.basePath == s.basePath && r.0.mappingsPath == s.mappingsPath
    ensures r.1.None? || r.1.value.InvalidRegex?
    // an ignore pattern that does not compile escapes before anything is replaced
    ensures |doc.ignore| > 0 && !e.compiles(doc.ignore) ==>
              r.0.ignore == s.ignore && r.0.mappings == s.mappings && r.1 == Some(InvalidRegex(doc.ignore))
  {
    if |doc.ignore| > 0 && !e.compiles(doc.ignore) then (s, Some(InvalidRegex(doc.ignore)))
    else
      var s1 := s.(ignore := if |doc.ignore| > 0 then Some(Pattern(doc.ignore)) else None);
      match doc.maps
      case LengthFailure(exceptionClass) =>
        (Logging(s1, Severe, None, LengthFailureMessage(exceptionClass)).(mappings := None), None)
      case Nodes(nodes) =>
        var (rules, bad) := Compile(e, nodes);
        var s2 := s1.(mappings := Some(rules));
        if bad.Some? then (s2, Some(InvalidRegex(bad.value)))
        else (Logging(s2, Warning, None, FinishedMessage(|rules|, |nodes|, MappingsFile(s))), None)
  }

  /**
   * `readMappingsIfNeeded` at time `now`, when the mappings file has
   * modification time `mtime` and parses to `file`.
   */
  function ReadMappingsIfNeeded(e: Engine, s: FilterState, now: int, mtime: int, file: ParseResult): (r: (FilterState, Option<FilterError>))
    // before the deadline nothing at all happens
    ensures now <= s.deadline ==> r == (s, None)
    // once past it, the next deadline is set whatever follows
    ensures now > s.deadline ==> r.0.deadline == now + RefreshMappingsMs
    // the table is rebuilt only for a strictly newer file, whose time is recorded before parsing
    ensures now <= s.deadline || mtime <= s.lastModified ==>
              r.0.lastModified == s.lastModified && r.0.ignore == s.ignore && r.0.mappings == s.mappings && r.1.None?
    ensures now > s.deadline && mtime > s.lastModified ==> r.0.lastModified == mtime
    // a parse failure keeps the table and is reported
    ensures file.ParseError? ==> r.0.ignore == s.ignore && r.0.mappings == s.mappings
    ensures file.ParseError? && now > s.deadline && mtime > s.lastModified ==> r.1 == Some(ParseFailed(MappingsFile(s)))
    ensures r.0.basePath == s.basePath && r.0.mappingsPath == s.mappingsPath
  {
    if now <= s.deadline then (s, None)
    else
      var s1 := Logging(s, Info, None, CheckMessage).(deadline := now + RefreshMappingsMs);
      if mtime <= s1.lastModified then (s1, None)
      else
        var s2 := Logging(s1, Warning, None, ReadingMessage(MappingsFile(s))).(lastModified := mtime);
        match file
        case ParseError(message) =>
          (Logging(s2, Severe, None, ParseErrorMessage(MappingsFile(s), message)), Some(ParseFailed(MappingsFile(s))))
        case Parsed(doc) => ApplyDocument(e, s2, doc)
  }

  /** `findFile`: the routing decision, logged once at its level. */
  function FindFile(e: Engine, s: FilterState, isFile: string -> bool, url: string): (r: (FilterState, Decision))
    // only the log changes
    ensures r.0 == s.(log := r.0.log)
    // the decision is the router's, and it is the last message logged, prefixed with the path
    ensures r.1 == Route(e, s.basePath, s.mappings, isFile, url)
    ensures r.0.log.mostRecent == Some(Format(Some(url), DecisionMessage(s.basePath, r.1)))
    // a missing table is logged at severe, a missing file at warning, the rest at info
    ensures r.0.log.out != s.log.out ==>
              |r.0.log.out| > 0 &&
              r.0.log.out[|r.0.log.out| - 1]
                == Line(if r.1.NoMappings? then Severe else if r.1.Matched? && !r.1.found then Warning else Info,
                        Format(Some(url), DecisionMessage(s.basePath, r.1)))
  {
    var d := Route(e, s.basePath, s.mappings, isFile, url);
    (Logging(s, DecisionLevel(d), Some(url), DecisionMessage(s.basePath, d)), d)
  }

  /** What a request comes to: the file is served, the next filter gets it, or an exception escapes. */
  datatype Outcome = Serve(file: string) | Delegate | Fail(error: FilterError)

  /**
   * `doFilter` for a request with the given context path and request URI:
   * strip the context path, check the ignore pattern in force before any
   * reload, then reload if due, then route.
   */
  function DoFilter(e: Engine, s: FilterState, contextPath: string, requestUri: string,
                    now: int, mtime: int, file: ParseResult, isFile: string -> bool): (r: (FilterState, Outcome))
    ensures |contextPath| > |requestUri| ==> r == (s, Fail(ContextPathTooLong))
    ensures r.1.Fail? && |contextPath| <= |requestUri| ==>
              now > s.deadline && mtime > s.lastModified && (r.1.error.ParseFailed? || r.1.error.InvalidRegex?)
    // and conversely a failed reload fails the request that triggered it, which is not routed
    ensures |contextPath| <= |requestUri| && !(s.ignore.Some? && Matches(e, s.ignore.value, requestUri[|contextPath|..]))
            && ReadMappingsIfNeeded(e, s, now, mtime, file).1.Some? ==>
              r == (ReadMappingsIfNeeded(e, s, now, mtime, file).0, Fail(ReadMappingsIfNeeded(e, s, now, mtime, file).1.value))
  {
    if |contextPath| > |requestUri| then (s, Fail(ContextPathTooLong))
    else
      var url := requestUri[|contextPath|..];
      if s.ignore.Some? && Matches(e, s.ignore.value, url) then
        (Logging(s, Info, Some(url), IgnoredMessage), Delegate)
      else
        var (s1, err) := ReadMappingsIfNeeded(e, s, now, mtime, file);
        if err.Some? then (s1, Fail(err.value))
        else
          var (s2, d) := FindFile(e, s1, isFile, url);
          match Resolved(s1.basePath, d)
          case Some(f) => (s2, Serve(f))
          case None => (s2, Delegate)
  }

  /** `basePath` with a "/" appended unless it already ends in one. */
  function NormalizeBasePath(basePath: string): (r: string)
    ensures EndsWith(r, "/")
    ensures basePath <= r && |r| <= |basePath| + 1
    ensures EndsWith(basePath, "/") ==> r == basePath
  {
    if EndsWith(basePath, "/") then basePath else basePath + "/"
  }

  /**
   * `init` with the `basePath` and `mappingsPath` init parameters (None when
   * absent): both are required; then the mappings are read for the first
   * time and the start is logged.
   */
  function Init(e: Engine, s: FilterState, basePath: Option<string>, mappingsPath: Option<string>,
                now: int, mtime: int, file: ParseResult): (r: (FilterState, Option<FilterError>))
    ensures basePath.None? <==> r.1 == Some(MissingBasePath)
    ensures basePath.Some? && mappingsPath.None? <==> r.1 == Some(MissingMappingsPath)
    ensures basePath.Some? ==> r.0.basePath == NormalizeBasePath(basePath.value)
    // with both parameters present, an error of the first read escapes from `init`, and only then is there an error
    ensures basePath.Some? && mappingsPath.Some? ==>
              var first := ReadMappingsIfNeeded(e, s.(basePath := NormalizeBasePath(basePath.value)).(mappingsPath := mappingsPath.value),
                                                now, mtime, file);
              && r.1 == first.1
              && (first.1.Some? ==> r.0 == first.0)
              && r.0.mappingsPath == mappingsPath.value
  {
    match basePath
    case None => (s, Some(MissingBasePath))
    case Some(b) =>
      var s1 := s.(basePath := NormalizeBasePath(b));
      match mappingsPath
      case None => (s1, Some(MissingMappingsPath))
      case Some(m) =>
        var (s2, err) := ReadMappingsIfNeeded(e, s1.(mappingsPath := m), now, mtime, file);
        if err.Some? then (s2, err) else (Logging(s2, Info, None, StartedMessage), None)
  }

  // ---------------------------------------------------------------------------
  // Properties

  /** After a check, the file is not looked at again until the interval has passed. */
  lemma AtMostOneCheckPerInterval(e: Engine, s: FilterState, now: int, mtime: int, file: ParseResult,
                                  later: int, mtime2: int, file2: ParseResult)
    requires now > s.deadline && later <= now + RefreshMappingsMs
    ensures var s1 := ReadMappingsIfNeeded(e, s, now, mtime, file).0;
            ReadMappingsIfNeeded(e, s1, later, mtime2, file2) == (s1, None)
  {
  }

  /**
   * A newer file that parses is compiled into the table: the ignore pattern
   * is absent exactly when the `ignore` attribute is empty, the rules are one
   * per `map` element in document order, a failing `getLength()` leaves no
   * rules, and an error is raised exactly when some regex does not compile.
   */
  lemma NewerFileIsCompiled(e: Engine, s: FilterState, now: int, mtime: int, doc: Document)
    requires now > s.deadline && mtime > s.lastModified
    ensures var (s1, err) := ReadMappingsIfNeeded(e, s, now, mtime, Parsed(doc));
            && (err.None? <==> (doc.ignore == [] || e.compiles(doc.ignore)) && (doc.maps.Nodes? ==> AllCompile(e, doc.maps.nodes)))
            && (err.None? ==> (s1.ignore.None? <==> doc.ignore == []))
            && (err.None? && doc.ignore != [] ==> s1.ignore == Some(Pattern(doc.ignore)))
            && (err.None? && doc.maps.Nodes? ==> s1.mappings == Some(ElementRules(doc.maps.nodes)))
            && (err.None? && doc.maps.LengthFailure? ==> s1.mappings == None)
  {
    if doc.maps.Nodes? {
      CompileBuildsElementRules(e, doc.maps.nodes);
    }
  }

  /**
   * A `url` that does not compile escapes as a PatternSyntaxException after
   * the new ignore pattern is in place and with the rules before it already
   * in `mappings`; the new modification time is recorded, so the file is not
   * read again until it changes.
   */
  lemma BadRegexLeavesPartialTable(e: Engine, s: FilterState, now: int, mtime: int, doc: Document)
    requires now > s.deadline && mtime > s.lastModified
    requires doc.ignore == [] || e.compiles(doc.ignore)
    requires doc.maps.Nodes? && !AllCompile(e, doc.maps.nodes)
    ensures var (s1, err) := ReadMappingsIfNeeded(e, s, now, mtime, Parsed(doc));
            && s1.lastModified == mtime
            && (s1.ignore.None? <==> doc.ignore == [])
            && err.Some? && err.value.InvalidRegex?
            && exists k :: 0 <= k < |doc.maps.nodes| && doc.maps.nodes[k].ElementNode?
                           && doc.maps.nodes[k].url == err.value.regex && !e.compiles(err.value.regex)
                           && s1.mappings == Some(ElementRules(doc.maps.nodes[..k]))
  {
    CompileBuildsElementRules(e, doc.maps.nodes);
  }

  /**
   * An `ignore` attribute that does not compile escapes as a
   * PatternSyntaxException before the ignore pattern or the rules are
   * replaced, but after the new modification time is recorded: the old table
   * stays in force and the file is not read again until it changes.
   */
  lemma BadIgnoreKeepsTable(e: Engine, s: FilterState, now: int, mtime: int, doc: Document,
                            later: int, mtime2: int, file2: ParseResult)
    requires now > s.deadline && mtime > s.lastModified
    requires doc.ignore != [] && !e.compiles(doc.ignore)
    requires mtime2 <= mtime
    ensures var (s1, err) := ReadMappingsIfNeeded(e, s, now, mtime, Parsed(doc));
            && s1.lastModified == mtime && s1.ignore == s.ignore && s1.mappings == s.mappings
            && err == Some(InvalidRegex(doc.ignore))
            && var (s2, err2) := ReadMappingsIfNeeded(e, s1, later, mtime2, file2);
               err2.None? && s2.ignore == s.ignore && s2.mappings == s.mappings
  {
  }

  /**
   * A file that fails to parse leaves the table as it was, raises an error,
   * and is not read again until its modification time advances once more.
   */
  lemma ParseFailureNotRetried(e: Engine, s: FilterState, now: int, mtime: int, message: string,
                               later: int, mtime2: int, file2: ParseResult)
    requires now > s.deadline && mtime > s.lastModified
    requires mtime2 <= mtime
    ensures var (s1, err) := ReadMappingsIfNeeded(e, s, now, mtime, ParseError(message));
            && err == Some(ParseFailed(MappingsFile(s)))
            && s1.ignore == s.ignore && s1.mappings == s.mappings
            && var (s2, err2) := ReadMappingsIfNeeded(e, s1, later, mtime2, file2);
               err2.None? && s2.ignore == s.ignore && s2.mappings == s.mappings
  {
  }

  /**
   * A path the current ignore pattern matches is passed on at once: the
   * deadline, the timestamps and the table stay as they are, whatever the
   * rules, the clock or the file say.
   */
  lemma IgnoredRequestSkipsReloadAndRouting(e: Engine, s: FilterState, contextPath: string, requestUri: string,
                                            now: int, mtime: int, file: ParseResult, isFile: string -> bool)
    requires |contextPath| <= |requestUri|
    requires s.ignore.Some? && Matches(e, s.ignore.value, requestUri[|contextPath|..])
    ensures var (s1, outcome) := DoFilter(e, s, contextPath, requestUri, now, mtime, file, isFile);
            outcome == Delegate && s1 == s.(log := s1.log)
  {
  }

  /**
   * A path the ignore pattern in force does not match is served exactly when
   * the first matching rule of the table after the reload check maps it to a
   * regular file, and then that file is served; otherwise it is passed on.
   * The ignore pattern a reload installs applies only from the next request.
   */
  lemma RoutedRequestServedIffFileFound(e: Engine, s: FilterState, contextPath: string, requestUri: string,
                                        now: int, mtime: int, file: ParseResult, isFile: string -> bool)
    requires |contextPath| <= |requestUri|
    requires !(s.ignore.Some? && Matches(e, s.ignore.value, requestUri[|contextPath|..]))
    requires ReadMappingsIfNeeded(e, s, now, mtime, file).1.None?
    ensures var url := requestUri[|contextPath|..];
            var s1 := ReadMappingsIfNeeded(e, s, now, mtime, file).0;
            var d := Route(e, s1.basePath, s1.mappings, isFile, url);
            var outcome := DoFilter(e, s, contextPath, requestUri, now, mtime, file, isFile).1;
            && (outcome.Serve? <==> d.Matched? && d.found)
            && (outcome.Serve? ==> outcome.file == s.basePath + d.filePath && isFile(outcome.file))
            && (!outcome.Serve? ==> outcome == Delegate)
  {
  }

  /**
   * The first `init` of a new filter with both parameters present reads the
   * mappings file whenever the clock and the file's time are past 0.
   */
  lemma FirstInitReadsMappings(e: Engine, basePath: string, mappingsPath: string, now: int, mtime: int, doc: Document)
    requires now > 0 && mtime > 0
    requires doc.maps.Nodes? && AllCompile(e, doc.maps.nodes) && (doc.ignore == [] || e.compiles(doc.ignore))
    ensures var (s, err) := Init(e, Fresh, Some(basePath), Some(mappingsPath), now, mtime, Parsed(doc));
            && err.None?
            && EndsWith(s.basePath, "/")
            && s.deadline == now + RefreshMappingsMs && s.lastModified == mtime
            && s.mappings == Some(ElementRules(doc.maps.nodes))
            && (s.ignore.None? <==> doc.ignore == [])
  {
    var s1 := Fresh.(basePath := NormalizeBasePath(basePath)).(mappingsPath := mappingsPath);
    NewerFileIsCompiled(e, s1, now, mtime, doc);
  }
}

=== FILE: logdedup.dfy ===
/**
 * The filter's logging front end (`log(Level, String, String)`): a message is
 * prefixed with the request path when there is one; a message equal to the
 * previous one is only counted; a different message first flushes
 * "<n> more like the above." for the repeats it follows, then goes to the
 * logger at severe, warning or (for every other level) info.
 */
module LogDedup {
  import opened Wrappers
  import Text

  /** The java.util.logging levels a caller may pass. */
  datatype Level = Severe | Warning | Info | Config | Fine

  /** A line handed to the logger: a message, or the summary of `count` suppressed repeats. */
  datatype Entry = Line(level: Level, text: string) | Summary(count: nat)

  /** Level and text the logger receives for an entry. */
  function Rendered(e: Entry): (Level, string)
  {
    match e
    case Line(level, text) => (level, text)
    case Summary(n) => (Info, Text.NatToString(n) + " more like the above.")
  }

  /**
   * `mostRecentMessage` (None for Java's initial null), `messageRepeats`,
   * and everything handed to the logger so far.
   */
  datatype LogState = LogState(mostRecent: Option<string>, repeats: nat, out: seq<Entry>)

  const Initial := LogState(None, 0, [])

  /** The message as logged: prefixed with "[urlPath] " when there is a path. */
  function Format(urlPath: Option<string>, message: string): (r: string)
    ensures Text.EndsWith(r, message)
    ensures urlPath.None? ==> r == message
    ensures urlPath.Some? ==> |r| == |urlPath.value| + 3 + |message|
    ensures urlPath.Some? ==> r[..|urlPath.value| + 3] == "[" + urlPath.value + "] "
  {
    match urlPath
    case Some(u) => "[" + u + "] " + message
    case None => message
  }

  /** The logger method chosen: severe, warning, or info for every other level. */
  function SinkLevel(level: Level): (r: Level)
    ensures r == Severe || r == Warning || r == Info
    ensures level == Severe || level == Warning || level == Info ==> r == level
    ensures level != Severe && level != Warning ==> r == Info
  {
    if level == Severe then Severe else if level == Warning then Warning else Info
  }

  /** How many log requests an output accounts for: one per line, n per summary. */
  function Count(out: seq<Entry>): nat
  {
    if out == [] then 0
    else (match out[0] case Line(_, _) => 1 case Summary(n) => n) + Count(out[1..])
  }

  lemma {:induction false} CountAppend(a: seq<Entry>, b: seq<Entry>)
    ensures Count(a + b) == Count(a) + Count(b)
  {
    if a != [] {
      assert (a + b)[1..] == a[1..] + b;
      CountAppend(a[1..], b);
    } else {
      assert a + b == b;
    }
  }

  /**
   * One call of `log`. The counter and the output together account for every
   * request (nothing is lost), the output only grows, and it grows exactly
   * when the formatted message differs from the previous one, ending with
   * that message at its sink level.
   */
  function Log(s: LogState, level: Level, urlPath: Option<string>, message: string): (t: LogState)
    ensures t.mostRecent == Some(Format(urlPath, message))
    ensures Count(t.out) + t.repeats == Count(s.out) + s.repeats + 1
    ensures s.out <= t.out && |t.out| <= |s.out| + 2
    ensures t.out == s.out <==> s.mostRecent == Some(Format(urlPath, message))
    // a new message first flushes the pending count, if any, as one summary
    ensures t.out != s.out ==>
              t.repeats == 0 &&
              t.out == s.out + (if s.repeats > 0 then [Summary(s.repeats)] else []) + [Line(SinkLevel(level), Format(urlPath, message))]
  {
    var m := Format(urlPath, message);
    if s.mostRecent == Some(m) then
      s.(repeats := s.repeats + 1)
    else
      var summary := if s.repeats > 0 then [Summary(s.repeats)] else [];
      CountAppend(s.out + summary, [Line(SinkLevel(level), m)]);
      CountAppend(s.out, summary);
      CountAppend([Line(SinkLevel(level), m)], []);
      LogState(Some(m), 0, s.out + summary + [Line(SinkLevel(level), m)])
  }

  /**
   * What the logger receives when a new message follows n > 0 repeats:
   * "n more like the above." at info, then the message at its sink level.
   */
  lemma SummaryThenMessage(s: LogState, level: Level, urlPath: Option<string>, message: string)
    requires s.mostRecent != Some(Format(urlPath, message)) && s.repeats > 0
    ensures var t := Log(s, level, urlPath, message);
            && |t.out| == |s.out| + 2
            && Rendered(t.out[|s.out|]) == (Info, Text.NatToString(s.repeats) + " more like the above.")
            && Rendered(t.out[|s.out| + 1]) == (SinkLevel(level), Format(urlPath, message))
  {
  }

  datatype Request = Request(level: Level, urlPath: Option<string>, message: string)

  /** A sequence of `log` calls, in order. */
  function LogAll(s: LogState, requests: seq<Request>): LogState
    decreases |requests|
  {
    if requests == [] then s
    else LogAll(Log(s, requests[0].level, requests[0].urlPath, requests[0].message), requests[1..])
  }

  /** Over any run of calls, every request is either a line, part of a summary, or still counted. */
  lemma {:induction false} LogAllLossless(s: LogState, requests: seq<Request>)
    ensures Count(LogAll(s, requests).out) + LogAll(s, requests).repeats == Count(s.out) + s.repeats + |requests|
    decreases |requests|
  {
    if requests != [] {
      LogAllLossless(Log(s, requests[0].level, requests[0].urlPath, requests[0].message), requests[1..]);
    }
  }

  /** A run of identical requests after a different message emits nothing and only counts. */
  lemma {:induction false} RepeatsOnlyCount(s: LogState, r: Request, n: nat)
    requires s.mostRecent == Some(Format(r.urlPath, r.message))
    ensures LogAll(s, seq(n, _ => r)) == s.(repeats := s.repeats + n)
    decreases n
  {
    if n > 0 {
      assert seq(n, _ => r)[1..] == seq(n - 1, _ => r);
      RepeatsOnlyCount(s.(repeats := s.repeats + 1), r, n - 1);
    }
  }

  /** The texts of the message lines, summaries left out. */
  function Lines(out: seq<Entry>): seq<string>
  {
    if out == [] then []
    else (match out[0] case Line(_, t) => [t] case Summary(_) => []) + Lines(out[1..])
  }

  lemma {:induction false} LinesAppend(a: seq<Entry>, b: seq<Entry>)
    ensures Lines(a + b) == Lines(a) + Lines(b)
  {
    if a != [] {
      assert (a + b)[1..] == a[1..] + b;
      LinesAppend(a[1..], b);
    } else {
      assert a + b == b;
    }
  }

  /** No message line is followed directly by the same text. */
  ghost predicate NoAdjacentRepeats(ls: seq<string>)
  {
    forall i, j :: 0 <= i && j == i + 1 && j < |ls| ==> ls[i] != ls[j]
  }

  ghost predicate SummariesPositive(out: seq<Entry>)
  {
    forall k :: 0 <= k < |out| && out[k].Summary? ==> out[k].count > 0
  }

  /**
   * What the deduplication keeps true of the output: no message line is
   * followed directly by the same text, `mostRecent` is the last line's text,
   * and every summary reports at least one repeat.
   */
  ghost predicate Deduplicated(s: LogState)
  {
    && NoAdjacentRepeats(Lines(s.out))
    && (s.mostRecent.None? <==> Lines(s.out) == [])
    && (Lines(s.out) != [] ==> s.mostRecent == Some(Lines(s.out)[|Lines(s.out)| - 1]))
    && SummariesPositive(s.out)
  }

  lemma InitialDeduplicated()
    ensures Deduplicated(Initial)
  {
  }

  lemma LogKeepsDeduplicated(s: LogState, level: Level, urlPath: Option<string>, message: string)
    requires Deduplicated(s)
    ensures Deduplicated(Log(s, level, urlPath, message))
  {
    var m := Format(urlPath, message);
    if s.mostRecent != Some(m) {
      var summary := if s.repeats > 0 then [Summary(s.repeats)] else [];
      NewLineDeduplicated(s, summary, Line(SinkLevel(level), m));
    }
  }

  /** Appending an optional positive summary and a line with a new text keeps the invariant. */
  lemma NewLineDeduplicated(s: LogState, summary: seq<Entry>, line: Entry)
    requires Deduplicated(s) && line.Line? && s.mostRecent != Some(line.text)
    requires summary == [] || (|summary| == 1 && summary[0].Summary? && summary[0].count > 0)
    ensures Deduplicated(LogState(Some(line.text), 0, s.out + summary + [line]))
  {
    LinesOfNewMessage(s.out, summary, line);
    NoAdjacentRepeatsExtend(Lines(s.out), line.text);
    SummariesPositiveExtend(s.out, summary + [line]);
    assert s.out + summary + [line] == s.out + (summary + [line]);
  }

  lemma NoAdjacentRepeatsExtend(ls: seq<string>, m: string)
    requires NoAdjacentRepeats(ls)
    requires ls != [] ==> ls[|ls| - 1] != m
    ensures NoAdjacentRepeats(ls + [m])
  {
    var lt := ls + [m];
    forall i, j | 0 <= i && j == i + 1 && j < |lt| ensures lt[i] != lt[j] {
      if j < |ls| {
        assert lt[i] == ls[i] && lt[j] == ls[j];
      }
    }
  }

  lemma SummariesPositiveExtend(out: seq<Entry>, extra: seq<Entry>)
    requires SummariesPositive(out) && SummariesPositive(extra)
    ensures SummariesPositive(out + extra)
  {
    forall k | 0 <= k < |out + extra| && (out + extra)[k].Summary? ensures (out + extra)[k].count > 0 {
      if k >= |out| {
        assert (out + extra)[k] == extra[k - |out|];
      }
    }
  }

  lemma LinesOfNewMessage(out: seq<Entry>, summary: seq<Entry>, line: Entry)
    requires line.Line?
    requires forall k :: 0 <= k < |summary| ==> summary[k].Summary?
    requires |summary| <= 1
    ensures Lines(out + summary + [line]) == Lines(out) + [line.text]
  {
    LinesAppend(out + summary, [line]);
    LinesAppend(out, summary);
    if summary != [] {
      assert summary[1..] == [];
    }
    assert Lines(summary) == [];
    assert [line][1..] == [];
    assert Lines([line]) == [line.text];
  }

  // The source keeps `messageRepeats` in a Java int. The members below model
  // that counter as written; `Log` above keeps it unbounded.

  const MaxInt: int := 0x7fff_ffff
  const MinInt: int := -0x8000_0000

  /** `++messageRepeats`: two's-complement wrap-around past Integer.MAX_VALUE. */
  function AsWrittenIncrement(n: int): (r: int)
    requires MinInt <= n <= MaxInt
    ensures MinInt <= r <= MaxInt
    ensures n < MaxInt ==> r == n + 1
    ensures r == (n + 1 - MinInt) % 0x1_0000_0000 + MinInt
  {
    if n == MaxInt then MinInt else n + 1
  }

  /** The Java counter after `k` consecutive repeats of one message. */
  function AsWrittenRepeatsAfter(k: nat): (r: int)
    ensures MinInt <= r <= MaxInt
  {
    if k == 0 then 0 else AsWrittenIncrement(AsWrittenRepeatsAfter(k - 1))
  }

  lemma {:induction false} AsWrittenRepeatsBelowWrap(k: nat)
    requires k <= MaxInt
    ensures AsWrittenRepeatsAfter(k) == k
  {
    if k > 0 {
      AsWrittenRepeatsBelowWrap(k - 1);
    }
  }

  /**
   * After 2^31 suppressed repeats the Java counter is negative, so the guard
   * `messageRepeats > 0` skips the summary and those repeats are never
   * reported; the unbounded counter of `Log` reports them.
   */
  lemma AsWrittenOverflowDropsSummary()
    ensures AsWrittenRepeatsAfter(0x8000_0000) == MinInt
    ensures !(AsWrittenRepeatsAfter(0x8000_0000) > 0)
  {
    AsWrittenRepeatsBelowWrap(MaxInt);
  }

  /** With the unbounded counter the same run of repeats is flushed as one summary. */
  lemma CorrectedCounterReportsRepeats(s: LogState, r: Request, other: Request)
    requires s.mostRecent == Some(Format(r.urlPath, r.message)) && s.repeats == 0
    requires Format(other.urlPath, other.message) != Format(r.urlPath, r.message)
    ensures var t := LogAll(s, seq(0x8000_0000, _ => r));
            Log(t, other.level, other.urlPath, other.message).out
              == s.out + [Summary(0x8000_0000), Line(SinkLevel(other.level), Format(other.urlPath, other.message))]
  {
    RepeatsOnlyCount(s, r, 0x8000_0000);
  }
}

=== FILE: mappings.dfy ===
/**
 * The rule compiler of the filter: what `readMappingsIfNeeded` builds from an
 * already-parsed mappings document, `<mappings ignore="..."><map url=".." to=".."/>...`.
 */
module Mappings {
  import opened Wrappers
  import opened Regex

  /** A node of `getElementsByTagName("map")`: an element with its `url` and `to` attributes, or any other node. */
  datatype MapNode = ElementNode(url: string, to: string) | OtherNode

  /** The `map` node list, or the class of the exception its `getLength()` threw. */
  datatype MapList = Nodes(nodes: seq<MapNode>) | LengthFailure(exceptionClass: string)

  /** A parsed mappings document: the root's `ignore` attribute ("" when absent) and its `map` nodes. */
  datatype Document = Document(ignore: string, maps: MapList)

  /** Reading the mappings file: a document, or the message of the parser's exception. */
  datatype ParseResult = Parsed(doc: Document) | ParseError(message: string)

  /** One mapping: a compiled `url` pattern and its `to` template. */
  datatype Rule = Rule(pattern: Pattern, to: string)

  /**
   * The rules the loop over the `map` nodes appends, in order, and the `url`
   * whose `Pattern.compile` threw and ended the loop, if any.
   */
  function Compile(e: Engine, nodes: seq<MapNode>): (r: (seq<Rule>, Option<string>))
    ensures |r.0| <= |nodes|
  {
    if nodes == [] then ([], None)
    else match nodes[0]
      case OtherNode => Compile(e, nodes[1..])
      case ElementNode(url, to) =>
        if !e.compiles(url) then ([], Some(url))
        else
          var rest := Compile(e, nodes[1..]);
          ([Rule(Pattern(url), to)] + rest.0, rest.1)
  }

  /** One rule per `map` element, in document order, regardless of whether its url compiles. */
  function ElementRules(nodes: seq<MapNode>): seq<Rule>
  {
    if nodes == [] then []
    else
      (match nodes[0] case ElementNode(url, to) => [Rule(Pattern(url), to)] case OtherNode => [])
      + ElementRules(nodes[1..])
  }

  /** Every `map` element's url is accepted by `Pattern.compile`. */
  ghost predicate AllCompile(e: Engine, nodes: seq<MapNode>)
  {
    forall k :: 0 <= k < |nodes| && nodes[k].ElementNode? ==> e.compiles(nodes[k].url)
  }

  /**
   * The compiler stops exactly when some url does not compile. Without such a
   * url it yields one rule per element in document order; otherwise it stops
   * at the first bad url, having built the rules of the elements before it.
   */
  lemma {:induction false} CompileBuildsElementRules(e: Engine, nodes: seq<MapNode>)
    ensures Compile(e, nodes).1.None? <==> AllCompile(e, nodes)
    ensures Compile(e, nodes).1.None? ==> Compile(e, nodes).0 == ElementRules(nodes)
    ensures Compile(e, nodes).1.Some? ==>
              exists k :: 0 <= k < |nodes| && nodes[k].ElementNode? && nodes[k].url == Compile(e, nodes).1.value
                          && !e.compiles(nodes[k].url) && AllCompile(e, nodes[..k])
                          && Compile(e, nodes).0 == ElementRules(nodes[..k])
  {
    if nodes != [] {
      var tail := nodes[1..];
      CompileBuildsElementRules(e, tail);
      assert forall k :: 1 <= k < |nodes| ==> nodes[k] == tail[k - 1];
      if nodes[0].ElementNode? && !e.compiles(nodes[0].url) {
        assert !AllCompile(e, nodes);
        assert nodes[..0] == [];
      } else {
        assert AllCompile(e, nodes) <==> AllCompile(e, tail);
        if Compile(e, tail).1.Some? {
          var k :| 0 <= k < |tail| && tail[k].ElementNode? && tail[k].url == Compile(e, tail).1.value
                   && !e.compiles(tail[k].url) && AllCompile(e, tail[..k])
                   && Compile(e, tail).0 == ElementRules(tail[..k]);
          assert nodes[..k + 1][1..] == tail[..k];
          assert nodes[..k + 1][0] == nodes[0];
          assert AllCompile(e, nodes[..k + 1]);
        }
      }
    }
  }
}

=== FILE: regex.dfy ===
/**
 * java.util.regex as the filter uses it, kept abstract: a pattern is known
 * only by its source text, `Pattern.compile` either accepts that text or
 * throws, and `matcher(input).matches()` is a whole-string match that yields
 * capture groups 1..groupCount, each possibly absent.
 */
module Regex {
  import opened Wrappers

  datatype Pattern = Pattern(source: string)

  /** Groups 1..groupCount of a successful match, at indices 0..groupCount-1. */
  type Groups = seq<Option<string>>

  /**
   * The regular-expression engine: `compiles(src)` says whether
   * `Pattern.compile(src)` succeeds, and `fullMatch(src, input)` is the
   * capture groups of a whole-string match, or None when it does not match.
   */
  datatype Engine = Engine(compiles: string -> bool, fullMatch: (string, string) -> Option<Groups>)

  predicate Matches(e: Engine, p: Pattern, input: string)
  {
    e.fullMatch(p.source, input).Some?
  }

  /** The text a group contributes to a substitution; a group that took no part gives "". */
  function GroupText(g: Option<string>): string
  {
    match g
    case Some(t) => t
    case None => ""
  }
}

=== FILE: router.dfy ===
/**
 * The filter's `findFile` as a specification: rules are tried in order, the
 * first whose pattern matches the whole request path decides, its `to`
 * template gets `$1..$N` replaced by the capture groups, and the candidate
 * `basePath + filePath` is served only if it is an existing regular file.
 */
module Router {
  import opened Wrappers
  import opened Regex
  import opened Text
  import opened Mappings

  /** The placeholder for group j in a `to` template: "$" followed by j in decimal. */
  function Placeholder(j: nat): (p: string)
    ensures |p| >= 2 && p[0] == '$'
  {
    "$" + NatToString(j)
  }

  /** The template after the replacements for groups 1..k, done in ascending order of k. */
  function SubstituteUpTo(template: string, groups: Groups, k: nat): string
    requires k <= |groups|
  {
    if k == 0 then template
    else ReplaceAll(SubstituteUpTo(template, groups, k - 1), Placeholder(k), GroupText(groups[k - 1]))
  }

  /** The file path a matching rule maps to: every group substituted, 1 to groupCount. */
  function Substitute(template: string, groups: Groups): string
  {
    SubstituteUpTo(template, groups, |groups|)
  }

  /** A template without `$` is used as it is, whatever the groups. */
  lemma {:induction false} SubstituteKeepsPlainTemplate(template: string, groups: Groups, k: nat)
    requires k <= |groups|
    requires forall i :: 0 <= i < |template| ==> template[i] != '$'
    ensures SubstituteUpTo(template, groups, k) == template
  {
    if k > 0 {
      SubstituteKeepsPlainTemplate(template, groups, k - 1);
      AbsentFirstChar(template, Placeholder(k));
      ReplaceAllAbsent(template, Placeholder(k), GroupText(groups[k - 1]));
    }
  }

  // The class comment's example: `.*/resources/(one|two|three)/(.*)` matching
  // `/x/resources/one/a.png` captures "one" and "a.png", and `$1/resources/$2`
  // then maps to `one/resources/a.png`.
  // The template and groups are parameters pinned by the precondition: with
  // both as literals the verifier unfolds `Substitute` eagerly and exhausts its
  // resources.
  lemma DocumentedExample(template: string, groups: Groups)
    requires template == "$1/resources/$2" && groups == [Some("one"), Some("a.png")]
    ensures Substitute(template, groups) == "one/resources/a.png"
  {
    ResourcesTemplate("one", "a.png");
  }

  /** The same template in general: group 1, "/resources/", group 2, for a first group without `$`. */
  lemma ResourcesTemplate(dir: string, name: string)
    requires forall i :: 0 <= i < |dir| ==> dir[i] != '$'
    ensures Substitute("$1/resources/$2", [Some(dir), Some(name)]) == dir + "/resources/" + name
  {
    var groups: Groups := [Some(dir), Some(name)];
    PlaceholderDigit(1);
    PlaceholderDigit(2);
    var template := "$1/resources/$2";
    var plain := "/resources/";
    var two := "$2";
    assert template == "$1" + (plain + two);
    ReplaceAllAt("$1", plain + two, dir);
    ReplaceAllPlainPrefix(plain, two, "$1", dir);
    PlaceholderMiss(two, "$1", dir);
    assert SubstituteUpTo(template, groups, 1) == (dir + plain) + two;
    ReplaceAllPlainPrefix(dir + plain, two, two, name);
    ReplaceAllAt(two, "", name);
    assert two + "" == two;
  }

  /** A string as long as the target and different from it is left alone. */
  lemma PlaceholderMiss(s: string, target: string, replacement: string)
    requires |s| == |target| > 0 && s != target
    ensures ReplaceAll(s, target, replacement) == s
  {
    assert s[..|target|] == s;
    assert ReplaceAll(s[1..], target, replacement) == s[1..];
    assert [s[0]] + s[1..] == s;
  }

  /**
   * Replacing in ascending order rewrites "$10" as "$1" followed by "0": for
   * any match with at least one group (ten or more included), "$10" yields
   * group 1's text and a literal 0, never group 10.
   */
  lemma PlaceholderTenReadsGroupOne(groups: Groups)
    requires |groups| >= 1
    requires forall i :: 0 <= i < |GroupText(groups[0])| ==> GroupText(groups[0])[i] != '$'
    ensures Substitute("$10", groups) == GroupText(groups[0]) + "0"
  {
    var template := "$10";
    var one := GroupText(groups[0]);
    PlaceholderDigit(1);
    assert template == "$1" + "0";
    ReplaceAllAt("$1", "0", one);
    ReplaceAllAbsent("0", "$1", one);
    assert SubstituteUpTo(template, groups, 1) == one + "0";
    assert forall i :: 0 <= i < |one + "0"| ==> (one + "0")[i] != '$' by {
      forall i | 0 <= i < |one + "0"| ensures (one + "0")[i] != '$' {
        if i < |one| { assert (one + "0")[i] == one[i]; }
      }
    }
    SubstitutionSettles(template, groups, 1, |groups|);
  }

  /** Placeholders for groups 1 to 9 are "$" and one digit. */
  lemma PlaceholderDigit(j: nat)
    requires 1 <= j <= 9
    ensures Placeholder(j) == ['$', DigitChar(j)]
    ensures Placeholder(1) == "$1" && Placeholder(2) == "$2"
  {
    assert DigitChar(1) == '1' && DigitChar(2) == '2';
  }

  /** Text without a `$` survives every later replacement. */
  lemma {:induction false} SubstitutionSettles(template: string, groups: Groups, m: nat, k: nat)
    requires m <= k <= |groups|
    requires forall i :: 0 <= i < |SubstituteUpTo(template, groups, m)| ==> SubstituteUpTo(template, groups, m)[i] != '$'
    ensures SubstituteUpTo(template, groups, k) == SubstituteUpTo(template, groups, m)
    decreases k - m
  {
    if m < k {
      var s := SubstituteUpTo(template, groups, m);
      AbsentFirstChar(s, Placeholder(m + 1));
      ReplaceAllAbsent(s, Placeholder(m + 1), GroupText(groups[m]));
      SubstitutionSettles(template, groups, m + 1, k);
    }
  }

  /**
   * The index of the first rule at or after `i` whose pattern matches `url`,
   * with the capture groups of that match.
   */
  function FirstMatchFrom(e: Engine, rules: seq<Rule>, url: string, i: nat): (r: Option<(nat, Groups)>)
    requires i <= |rules|
    ensures r.Some? ==> i <= r.value.0 < |rules|
                        && e.fullMatch(rules[r.value.0].pattern.source, url) == Some(r.value.1)
                        && forall k :: i <= k < r.value.0 ==> !Matches(e, rules[k].pattern, url)
    ensures r.None? ==> forall k :: i <= k < |rules| ==> !Matches(e, rules[k].pattern, url)
    decreases |rules| - i
  {
    if i == |rules| then None
    else match e.fullMatch(rules[i].pattern.source, url)
      case Some(groups) => Some((i, groups))
      case None => FirstMatchFrom(e, rules, url, i + 1)
  }

  /**
   * What `findFile` decides: no rule list at all (Java's null), no rule
   * matching, or the first matching rule with its substituted file path and
   * whether `basePath + filePath` exists and is a regular file.
   */
  datatype Decision = NoMappings | NoMatch | Matched(index: nat, pattern: Pattern, filePath: string, found: bool)

  function Route(e: Engine, basePath: string, mappings: Option<seq<Rule>>, isFile: string -> bool, url: string): (d: Decision)
    ensures d.NoMappings? <==> mappings.None?
    ensures d.NoMatch? <==> mappings.Some? && forall k :: 0 <= k < |mappings.value| ==> !Matches(e, mappings.value[k].pattern, url)
    ensures d.Matched? ==>
              && mappings.Some? && d.index < |mappings.value|
              && (forall k :: 0 <= k < d.index ==> !Matches(e, mappings.value[k].pattern, url))
              && Matches(e, mappings.value[d.index].pattern, url)
              && d.pattern == mappings.value[d.index].pattern
              && d.filePath == Substitute(mappings.value[d.index].to, e.fullMatch(d.pattern.source, url).value)
              && d.found == isFile(basePath + d.filePath)
  {
    match mappings
    case None => NoMappings
    case Some(rules) =>
      match FirstMatchFrom(e, rules, url, 0)
      case None => NoMatch
      case Some((i, groups)) =>
        var filePath := Substitute(rules[i].to, groups);
        Matched(i, rules[i].pattern, filePath, isFile(basePath + filePath))
  }

  /** The file `findFile` returns: only a found match yields one. */
  function Resolved(basePath: string, d: Decision): (r: Option<string>)
    ensures r.Some? <==> d.Matched? && d.found
    // a served file always lies under the base path
    ensures r.Some? ==> basePath <= r.value && r.value[|basePath|..] == d.filePath
  {
    if d.Matched? && d.found then Some(basePath + d.filePath) else None
  }

  /**
   * Rules after the first matching one are never consulted: replacing them
   * changes nothing, even when the match led to a missing file.
   */
  lemma LaterRulesNeverConsulted(e: Engine, basePath: string, rules: seq<Rule>, other: seq<Rule>, isFile: string -> bool, url: string)
    requires Route(e, basePath, Some(rules), isFile, url).Matched?
    requires Route(e, basePath, Some(rules), isFile, url).index < |other|
    requires other[..Route(e, basePath, Some(rules), isFile, url).index + 1] == rules[..Route(e, basePath, Some(rules), isFile, url).index + 1]
    ensures Route(e, basePath, Some(other), isFile, url) == Route(e, basePath, Some(rules), isFile, url)
  {
    var i := Route(e, basePath, Some(rules), isFile, url).index;
    assert forall k :: 0 <= k <= i ==> other[k] == other[..i + 1][k] == rules[..i + 1][k] == rules[k];
    var d' := Route(e, basePath, Some(other), isFile, url);
    assert Matches(e, other[i].pattern, url);
    assert d'.Matched? && d'.index == i;
  }

  /**
   * Swapping two adjacent rules that never both match the path does not
   * change which file is served.
   */
  lemma SwapDisjointRules(e: Engine, basePath: string, a: seq<Rule>, r1: Rule, r2: Rule, b: seq<Rule>, isFile: string -> bool, url: string)
    requires !(Matches(e, r1.pattern, url) && Matches(e, r2.pattern, url))
    ensures Resolved(basePath, Route(e, basePath, Some(a + [r1, r2] + b), isFile, url))
            == Resolved(basePath, Route(e, basePath, Some(a + [r2, r1] + b), isFile, url))
  {
    var xs, ys := a + [r1, r2] + b, a + [r2, r1] + b;
    var n := |a|;
    assert forall k :: 0 <= k < |xs| && k != n && k != n + 1 ==> xs[k] == ys[k];
    assert xs[n] == ys[n + 1] == r1 && xs[n + 1] == ys[n] == r2;
    var dx, dy := Route(e, basePath, Some(xs), isFile, url), Route(e, basePath, Some(ys), isFile, url);
    if dx.Matched? {
      if dx.index < n {
        assert Matches(e, ys[dx.index].pattern, url);
      } else if dx.index == n {
        assert Matches(e, ys[n + 1].pattern, url);
        assert !Matches(e, ys[n].pattern, url);
      } else if dx.index == n + 1 {
        assert Matches(e, ys[n].pattern, url);
      } else {
        assert Matches(e, ys[dx.index].pattern, url);
      }
    }
  }

  /**
   * For rules that overlap, order decides: when two rules both match a path
   * and map it to different existing files, swapping them changes the file
   * served.
   */
  lemma OverlappingRulesOrderMatters(e: Engine, basePath: string, first: Rule, second: Rule, isFile: string -> bool, url: string)
    requires Matches(e, first.pattern, url) && Matches(e, second.pattern, url)
    requires isFile(basePath + Substitute(first.to, e.fullMatch(first.pattern.source, url).value))
    requires isFile(basePath + Substitute(second.to, e.fullMatch(second.pattern.source, url).value))
    requires Substitute(first.to, e.fullMatch(first.pattern.source, url).value)
             != Substitute(second.to, e.fullMatch(second.pattern.source, url).value)
    ensures Resolved(basePath, Route(e, basePath, Some([first, second]), isFile, url))
            == Some(basePath + Substitute(first.to, e.fullMatch(first.pattern.source, url).value))
    ensures Resolved(basePath, Route(e, basePath, Some([first, second]), isFile, url))
            != Resolved(basePath, Route(e, basePath, Some([second, first]), isFile, url))
  {
    assert Route(e, basePath, Some([first, second]), isFile, url).index == 0;
    assert Route(e, basePath, Some([second, first]), isFile, url).index == 0;
    var one := basePath + Substitute(first.to, e.fullMatch(first.pattern.source, url).value);
    var two := basePath + Substitute(second.to, e.fullMatch(second.pattern.source, url).value);
    assert one[|basePath|..] != two[|basePath|..];
  }
}

=== FILE: text.dfy ===
/**
 * The two pieces of java.lang.String behaviour the filter relies on:
 * decimal rendering of an int (string concatenation `"" + n`) and
 * `String.replace(CharSequence, CharSequence)`, which replaces every
 * non-overlapping occurrence of the target, scanning left to right.
 */
module Text {

  predicate IsDigit(c: char) { '0' <= c <= '9' }

  function DigitChar(d: nat): (c: char)
    requires d < 10
    ensures IsDigit(c)
  {
    ('0' as int + d) as char
  }

  /** The number a string of decimal digits denotes, most significant digit first. */
  function DecimalValue(s: string): nat
    requires forall i :: 0 <= i < |s| ==> IsDigit(s[i])
  {
    if s == [] then 0
    else
      assert IsDigit(s[|s| - 1]);
      DecimalValue(s[..|s| - 1]) * 10 + (s[|s| - 1] as int - '0' as int)
  }

  /** Decimal rendering of a non-negative number, without sign or leading zeros. */
  function NatToString(n: nat): (s: string)
    ensures |s| > 0
    ensures forall i :: 0 <= i < |s| ==> IsDigit(s[i])
    decreases n
  {
    if n < 10 then [DigitChar(n)] else NatToString(n / 10) + [DigitChar(n % 10)]
  }

  /** `NatToString` denotes its argument, without leading zeros. */
  lemma {:induction false} NatToStringValue(n: nat)
    ensures DecimalValue(NatToString(n)) == n
    ensures |NatToString(n)| > 1 ==> NatToString(n)[0] != '0'
    decreases n
  {
    var s := NatToString(n);
    if n >= 10 {
      NatToStringValue(n / 10);
      assert s[..|s| - 1] == NatToString(n / 10);
    }
  }

  predicate EndsWith(s: string, suffix: string)
  {
    |suffix| <= |s| && s[|s| - |suffix|..] == suffix
  }

  /** `target` occurs in `s` starting at index `i`. */
  predicate OccursAt(s: string, target: string, i: int)
  {
    0 <= i && i + |target| <= |s| && s[i..i + |target|] == target
  }

  ghost predicate Occurs(s: string, target: string)
  {
    exists i :: OccursAt(s, target, i)
  }

  /** `s.replace(target, replacement)` for a non-empty target. */
  function ReplaceAll(s: string, target: string, replacement: string): string
    requires target != []
    decreases |s|
  {
    if |s| < |target| then s
    else if s[..|target|] == target then replacement + ReplaceAll(s[|target|..], target, replacement)
    else [s[0]] + ReplaceAll(s[1..], target, replacement)
  }

  /** A string in which the target does not occur is returned unchanged. */
  lemma {:induction false} ReplaceAllAbsent(s: string, target: string, replacement: string)
    requires target != []
    requires !Occurs(s, target)
    ensures ReplaceAll(s, target, replacement) == s
    decreases |s|
  {
    if |s| >= |target| {
      assert !OccursAt(s, target, 0);
      assert s[..|target|] != target;
      forall i ensures !OccursAt(s[1..], target, i) {
        if 0 <= i && i + |target| <= |s| - 1 {
          assert s[1..][i..i + |target|] == s[i + 1..i + 1 + |target|];
          assert !OccursAt(s, target, i + 1);
        }
      }
      ReplaceAllAbsent(s[1..], target, replacement);
      assert [s[0]] + s[1..] == s;
    }
  }

  /** A target found at the start is replaced, and scanning resumes after it. */
  lemma ReplaceAllAt(target: string, rest: string, replacement: string)
    requires target != []
    ensures ReplaceAll(target + rest, target, replacement) == replacement + ReplaceAll(rest, target, replacement)
  {
    assert (target + rest)[..|target|] == target;
    assert (target + rest)[|target|..] == rest;
  }

  /** A prefix free of the target's first character is copied unchanged. */
  lemma {:induction false} ReplaceAllPlainPrefix(prefix: string, rest: string, target: string, replacement: string)
    requires target != []
    requires forall i :: 0 <= i < |prefix| ==> prefix[i] != target[0]
    ensures ReplaceAll(prefix + rest, target, replacement) == prefix + ReplaceAll(rest, target, replacement)
    decreases |prefix|
  {
    var s := prefix + rest;
    if prefix == [] {
      assert s == rest;
    } else if |s| < |target| {
      assert ReplaceAll(rest, target, replacement) == rest;
    } else {
      assert s[..|target|][0] == prefix[0] != target[0];
      assert ReplaceAll(s, target, replacement) == [s[0]] + ReplaceAll(s[1..], target, replacement);
      assert s[1..] == prefix[1..] + rest;
      ReplaceAllPlainPrefix(prefix[1..], rest, target, replacement);
      assert [prefix[0]] + prefix[1..] == prefix;
    }
  }

  /** A target starting with a character that `s` lacks does not occur in `s`. */
  lemma AbsentFirstChar(s: string, target: string)
    requires target != []
    requires forall i :: 0 <= i < |s| ==> s[i] != target[0]
    ensures !Occurs(s, target)
  {
    forall i ensures !OccursAt(s, target, i) {
      if 0 <= i && i + |target| <= |s| {
        assert s[i..i + |target|][0] == s[i];
      }
    }
  }
}

=== FILE: wrappers.dfy ===
/** The optional value used wherever the Java code uses a nullable reference. */
module Wrappers {

  datatype Option<+T> = None | Some(value: T)
}
